=== FILE: README.md ===
# Book recorder: ISBN, metadata and classification logic

A Dafny model of the decision logic of a small personal book catalogue.
The user types an ISBN. The application normalises and checks it. It asks the
national library's OpenSearch service for the title, author and NDC (Nippon
Decimal Classification) code. If that lookup fails, it asks Google Books. It
maps the NDC code to one of eleven major categories and picks a cover
thumbnail. A batch script (IsbnToNdc.py) runs the same classification scan
and maps each result to its category through a dictionary.

HTTP exchanges and XML/JSON parsing are not modelled as calls. Each answer is
an input value of a datatype:
- a request that raised, with its message;
- a status with a body that failed to parse, with the parser's message;
- a status with the parsed shape the code reads.

Python exceptions become `PyError` values. For those that app.py catches,
the text it hands back is `f"{e}"`. `get_ndc_from_isbn` catches only
`requests.exceptions.RequestException`; every other exception it meets (a
parse error, a missing key during the scan) is returned by the model as a
`Failure` value. Exceptions that app.py does not catch become
preconditions.

Modules:
- `Outcomes`: optional values and results.
- `PyErrors`: the Python exceptions the code meets, and the text `f"{e}"`
  gives for each.
- `Text`: the digit filter `re.sub(r"\D", "", s)`, `str.find`,
  `s.split(",")[-1]` and `f"{n}"`, each with an independent characterisation.
- `Isbn`: `isbn_checker`.
- `Ndc`: the classification scan over `rss.channel.item`, shared by `get_ndc`
  (app.py) and `get_ndc_from_isbn` (IsbnToNdc.py). The text returned when no
  classification is found is a parameter.
- `BookInfo`: `fetch_book_info`, `fetch_book_info2` (as written and
  corrected) and the fallback of the search button.
- `NdcMajor`: the select-box index and choices of app.py, and
  `ndc_major_dict` with the lookup of IsbnToNdc.py.
- `NdcBatch`: `get_ndc_from_isbn`.
- `Thumbnail`: `get_thumbnail`.
- `Scenario`: one search from end to end.

Behaviour of the code a reader might not expect:
- A missing `dc:subject` on a single item raises `KeyError`. It does not
  give "No item". "No item" means that the channel has no `item`.
- `get_thumbnail` is not total. An exception from either request escapes. A
  404 probe followed by a non-200 Google Books answer leaves the result
  unassigned.
- When Google Books finds nothing, its answer has no `items`. The code then
  raises `KeyError` and returns the error triple, not the "not found" triple.
- `fetch_book_info` on an answer that lists several items raises
  `AttributeError`, because `record.get` is called on a list. So the list
  branch of `get_ndc` is never reached from there.
- Google Books authors: see "Findings".

## Model

| member | source | states |
|---|---|---|
| Text.Digits | app.py:11 | the normalised ISBN contains only digits and is no longer than the input |
| Text.DigitsAppend | app.py:11 | the digit filter handles each character on its own: filtering a concatenation concatenates the filtered parts |
| Text.DigitsOfChar | app.py:11 | a single character survives the filter exactly when it is a digit |
| Text.DigitsOfDigits | app.py:11 | a string of digits passes the filter unchanged |
| Text.DigitsIdempotent | app.py:11 | filtering twice is filtering once |
| Text.DigitValue | app.py:210 | `int` of one digit character is a value below 10; an ASCII digit is the character '0' plus that value, and a full-width digit is '０' plus that value |
| Text.Contains | app.py:30 | `find(sub) >= 0` holds exactly when `sub` occurs at some index of the string |
| Text.LastSegment | app.py:59 | `split(",")[-1]` is the longest suffix without a comma: it has no comma, it ends the string, and it is either the whole string or preceded by a comma |
| Text.LastSegmentWithoutSeparator | app.py:59 | a text without a comma is its own last segment |
| Text.Decimal | app.py:65 | the status rendered by `f"{...}"` is a non-empty ASCII digit string with no leading zero: it begins with '0' only when it is "0", for the number 0 |
| Text.DecimalRoundTrip | app.py:65 | reading the rendered status back gives the status code |
| Isbn.IsbnChecker | app.py:10-18 | accepts exactly when the digits number 10, or 13 starting with 978 or 979, and then returns the digits; otherwise returns the wrong-length message exactly for a length other than 10 and 13, and the prefix message exactly for a 13-digit string with a bad prefix |
| Isbn.OnlyDigitsMatter | app.py:11-18 | the verdict on any input equals the verdict on its digits alone |
| Isbn.HyphensIgnored | app.py:11 | inserting a hyphen anywhere does not change the verdict |
| Isbn.AcceptedIsFixedPoint | app.py:11-18 | checking an accepted result again accepts it and returns it unchanged |
| Isbn.CheckDigitIgnored | app.py:15-18 | a 13-digit string with prefix 978 or 979 is accepted whatever its last digit; no check digit is verified |
| Ndc.Visited | app.py:28 | a `dc:subject` that occurs once is iterated as strings (its characters or its keys), never as a mapping; a list is iterated as itself |
| Ndc.ScanEntries | app.py:28-32 | the inner loop ends at the first entry that stops it (a qualifying `#text`, or a missing key), and finds nothing exactly when every entry is stepped over |
| Ndc.ScanMany | app.py:34-41 | over a list of items the result is that of the last item, unless an earlier item raises first, in which case it is that item's exception |
| Ndc.Classify | app.py:21-43 | "No item" for a channel without an item; an empty list leaves `ndc` unassigned; a successful result is never empty |
| Ndc.FirstQualifyingEntryWins | app.py:25-43 | for a single item, the first entry whose `@xsi:type` contains "dcndl:NDC", past skipped entries, gives its `#text` as the classification, or the "unknown" text when that text is empty |
| Ndc.NoQualifyingEntry | app.py:25-43 | a single item with no qualifying entry gives the "unknown" text |
| Ndc.OneSubjectNeverMatches | app.py:25-43 | an item whose `dc:subject` occurs once never yields a classification: alone it gives the "unknown" text, and in a list it scans as finding nothing |
| Ndc.MalformedEntryRaises | app.py:28-31 | a mapping entry reached by the scan without `@xsi:type` raises `KeyError('@xsi:type')`; a qualifying one without `#text` raises `KeyError('#text')` |
| Ndc.SingleItemNeedsSubject | app.py:28 | a single item without `dc:subject` raises `KeyError('dc:subject')` |
| Ndc.LastItemDecides | app.py:34-41 | when no earlier item raises, a list of items classifies as its last item alone |
| Ndc.ListClassifiesAsLastItem | app.py:33-43 | when no earlier item raises, a list of items gives what its last item gives alone when that item has a `dc:subject`, and the "unknown" text when it has none |
| Ndc.EarlierMatchDiscarded | app.py:34-43 | a matching item followed by an item without `dc:subject` gives the "unknown" text |
| Ndc.SentinelIsTheOnlyDifference | IsbnToNdc.py:14-35 | the scan with two different "unknown" texts returns the same on every channel, except where each returns its own "unknown" text |
| BookInfo.FetchBookInfo | app.py:46-67 | a transport failure or an unparsable body gives the error title with its message; a non-200 status gives ("APIエラー", the status rendered in decimal, None); a channel without items or with an empty item list gives ("データが見つかりませんでした", None, None); a non-empty item list gives the error triple with the `list.get` message; no classification means a failure title; a classification comes only from a 200 single-item answer, as `get_ndc` computed it, with the record's title or "タイトル不明" and an author that has no comma; a single item on which `get_ndc` raises gives the error triple with that exception's text |
| BookInfo.RecordFound | app.py:57-61 | a found record gives its title or "タイトル不明", the last comma-separated part of its author, and its classification |
| BookInfo.MissingAuthor | app.py:59 | a record without an author reports "著者情報不明" |
| BookInfo.ManyItemsFail | app.py:55-58 | an answer listing several items ends in the error triple with the `list.get` message |
| BookInfo.FetchVolume | app.py:70-91 | whatever the author extraction: a transport failure or unparsable body gives the error triple with its message; a non-200 status gives ("APIエラー", the status in decimal, None); a missing `items` gives the error triple with `KeyError('items')`, an empty list the one with `IndexError`, and any failure of `data["items"][0]["volumeInfo"]` its own error triple; an empty `volumeInfo` gives ("データが見つかりませんでした", None, None); a record gives its title or "タイトル不明" with "NDC分類不明" and the extracted author, or the error triple of the extraction's exception |
| BookInfo.SameAuthorSameVolume | app.py:79-85 | two author extractions that agree on the record's `authors` give the same lookup result |
| BookInfo.AuthorIntended | app.py:83 | the corrected author extraction never raises, takes the last name of a list, and leaves no comma in a text |
| BookInfo.FetchBookInfo2AsWritten | app.py:70-91 | every outcome listed for `FetchVolume`; a record whose `authors` is a list gives the error triple with the `list.split` message; a record without `authors` gives "著者情報不明", and one with a text gives its last comma-separated part |
| BookInfo.AuthorListRaises | app.py:83 | as written, a volume whose `authors` is a list ends in the error triple with the `list.split` message |
| BookInfo.FetchBookInfo2 | app.py:70-91 | every outcome listed for `FetchVolume`; every record gives its title or "タイトル不明", "NDC分類不明", and the author as the corrected extraction reads it |
| BookInfo.AuthorListYieldsLastAuthor | app.py:83 | corrected, a volume with a list of authors gives its title, its last author and "NDC分類不明" |
| BookInfo.CorrectionOnlyTouchesAuthorLists | app.py:79-85 | the corrected and the as-written lookups agree on every answer whose `authors` is not a list |
| BookInfo.Resolve | app.py:196-198 | as written: when the first title is a failure text the result is the as-written Google Books lookup, otherwise the first lookup's triple; a real classification (not "NDC分類不明") only ever comes from the national library; a title that is not a failure text always comes with a classification |
| BookInfo.ResolveIntended | app.py:196-198 | the same rule with the corrected Google Books lookup |
| BookInfo.ResolveCorrectionOnlyTouchesAuthorLists | app.py:196-198 | the search as written and as corrected agree whenever the Google Books record's `authors` is not a list |
| BookInfo.ResolveDiffersOnAuthorList | app.py:196-198 | after a failed first lookup, a Google Books volume with a list of authors gives the error triple as written and the title with the last author as corrected |
| BookInfo.SecondaryConsultedIff | app.py:196-198 | the first title is one of the three failure texts exactly when two Google Books answers exist that give different results |
| BookInfo.SecondaryIgnored | app.py:196-198 | when the first title is not a failure text, the result is the first lookup's, whatever Google Books answers |
| BookInfo.PrimaryFailureFallsThrough | app.py:196-198 | an unreachable library or a non-200 status gives the as-written Google Books lookup, whose records classify as "NDC分類不明" |
| BookInfo.PrimaryRecordKept | app.py:196-198 | a library record with a classification keeps it, unless its title is itself a failure text |
| NdcMajor.MajorIndex | app.py:210 | the index lies within the eleven choices; it is 10 ("No Data") exactly for None, "" and "NDC分類不明", and otherwise the first digit's value |
| NdcMajor.MajorChoiceNamesDigit | app.py:210-214 | the selected choice of a classification begins with its first digit followed by ": " |
| NdcMajor.MajorOf | IsbnToNdc.py:60 | the dictionary gives the empty label exactly for "N", and for an ASCII digit the same label as the select box of app.py |
| NdcMajor.SentinelsHaveEmptyLabel | IsbnToNdc.py:50 | "No item" and "No data" both get the empty label |
| NdcMajor.SpellingsAgree | IsbnToNdc.py:40-51 | for a code beginning with an ASCII digit, the dictionary's label is the select-box choice that app.py selects |
| NdcBatch.NdcFromIsbn | IsbnToNdc.py:5-38 | a request failure gives exactly "エラーが発生しました: " followed by its message; an unparsable body raises the parser's error; a parsed channel gives a result or the scan's `KeyError` or unbound `ndc`, and a result other than "No data" is what `get_ndc` gives; a successful result is never empty |
| NdcBatch.AgreesWithGetNdc | IsbnToNdc.py:14-35 | on every channel the batch scan equals `get_ndc` of app.py, except "No data" where that gives "NDC分類不明" |
| NdcBatch.NoItemHasEmptyCategory | IsbnToNdc.py:14-15 | a channel without an item gives "No item", whose category is empty |
| NdcBatch.RequestFailureHasNoCategory | IsbnToNdc.py:37-38 | the first character of a caught request failure is not a key of the dictionary, so the lookup of line 60 raises on it |
| NdcBatch.FoundCodeCategory | IsbnToNdc.py:60 | a found code beginning with an ASCII digit gets that digit's category |
| Thumbnail.LinkFrom | app.py:149-152 | the result is the thumbnail link the first volume names when there is one, and otherwise the placeholder |
| Thumbnail.GetThumbnail | app.py:137-155 | an empty ISBN gives the placeholder; a probe other than 404 gives the library URL; after a 404 the result is what `LinkFrom` reads from the Google Books body: its thumbnail link, or the placeholder |
| Thumbnail.SecondaryNotConsulted | app.py:143-154 | when the probe is not 404, the Google Books answer does not affect the result |
| Thumbnail.NoImageLinksGivesPlaceholder | app.py:148-152 | after a 404, a volume without `imageLinks` gives the placeholder |
| Thumbnail.NoVolumesGivesPlaceholder | app.py:149-152 | after a 404, an answer with no volumes gives the placeholder |
| Thumbnail.PrimaryUrlInjective | app.py:141 | different ISBNs get different library URLs, none of them the placeholder |
| Scenario.DigitsAfterHyphen | app.py:11 | a hyphen followed by a run of digits passes the filter as that run alone |
| Scenario.HyphenatedGroupsAccepted | app.py:10-18 | an ISBN typed as four hyphen-separated digit groups of twelve digits in all, starting 978 or 979, followed by a hyphen and one final digit, is accepted as the digits joined |
| Scenario.TypedIsbnAccepted | app.py:10-18 | "978-4-488-66335-3" is accepted as "9784488663353" |
| Scenario.RecordClassified | app.py:25-32 | the record's NDC subject, listed after a plain subject, gives "913" |
| Scenario.RecordFetched | app.py:57-61 | the library answer for that record yields ("夜の記憶", "恩田陸", "913") |
| Scenario.RecordResolved | app.py:46-61 | the library record for that ISBN resolves to ("夜の記憶", "恩田陸", "913") whatever Google Books answers |
| Scenario.YoruNoKiokuScenario | app.py:192-213 | the whole search: accepted ISBN, resolved triple, and "913" selecting "9: 文学" |

## Left out

- The Streamlit pages, session state and page selection (app.py:171-253) are interactive wiring. This includes the duplicate-ISBN warning of line 194 and the call of `get_thumbnail` with the session's ISBN.
- CSV persistence, pandas sorting and filtering (`load_data`, `save_to_csv`, lines 226 and 237-238) are file I/O through a library.
- `download_thumbnail`, `download_thumbnails_for_all` and `get_thumbnail_path` are side effects on the disk and the network.
- The module-level script of IsbnToNdc.py (lines 53-66) reads and writes local files. Only its lookup of line 60 (`NdcMajor.MajorOf`) is modelled.
- `requests.get`, `raise_for_status`, `xmltodict.parse` and `response.json()` are foreign libraries. Their outcomes are inputs, and the messages of their exceptions are abstract strings.
- Text.IsDigit: Python's `\d` and `int` accept every Unicode decimal digit. The model recognises only ASCII and full-width digits.
- Thumbnail.GetThumbnail: the probe is given as a status code. A probe that raises is an uncaught exception and is not modelled.
- Parsed shapes that the code does not expect are not modelled: an empty `item` or `dc:subject` element (parsed to `None`), and repeated or attributed `title`/`author` elements (parsed to lists or mappings).
- Empty `<author/>` and `<title/>` elements parse to `None`, which `record.get` returns in place of the default. An empty author makes `None.split` at app.py:59 raise, giving the error triple; an empty title is returned as `None`, which is not a failure text, so Google Books is not asked. The model's titles and authors are always texts.
- `type(...) == dict` at app.py:25,29 and IsbnToNdc.py:17,21 is modelled as true for every parsed mapping. That holds with xmltodict 0.13 and later, which builds plain dicts; older versions build `OrderedDict`, for which the test is false. A single item would then go to the list branch, which iterates the item's keys; `j.keys()` at app.py:36 (IsbnToNdc.py:28) raises `AttributeError` on the first key, a string. In a real list of items, every subject entry would be skipped.
- NdcMajor.MajorIndex: its requires (a classification beginning with a digit) stands for the `ValueError` that `int(ndc[0])` at app.py:210 raises on any other first character; that exception is not modelled.
- PyErrors.Message: the text of an unassigned local variable follows CPython 3.11; older versions word it differently.

## Findings

| source | as written | input that shows it | evidently intended | confidence | as-written member | corrected member |
|---|---|---|---|---|---|---|
| app.py:83 | `record.get("authors", "著者情報不明").split(",")[-1]` calls `split` on the `authors` value, which Google Books sends as a list of names | a 200 answer whose first volume has `authors = ["恩田陸"]` gives ("エラーが発生しました", "'list' object has no attribute 'split'", None) | the last listed author, as the default text and the library lookup suggest | not executed; medium (depends on the service's JSON shape) | BookInfo.AuthorListRaises | BookInfo.AuthorListYieldsLastAuthor |

`BookInfo.FetchBookInfo2AsWritten` models the code as written, and `BookInfo.Resolve`, the search button, calls it. `BookInfo.FetchBookInfo2` is the corrected lookup, and `BookInfo.ResolveIntended` is the search button with it. `BookInfo.ResolveDiffersOnAuthorList` and `BookInfo.ResolveCorrectionOnlyTouchesAuthorLists` show the two searches differ exactly on a list of authors.

=== FILE: book_info.dfy ===
/** The metadata lookups of app.py: `fetch_book_info` (national library
    OpenSearch), `fetch_book_info2` (Google Books) and the fallback rule of
    the search button. Each HTTP exchange is an input value: the request
    either raised (with its message) or answered with a status and a body,
    and the body either failed to parse (with the parser's message) or
    parsed to the shape the code reads. */
module BookInfo {
  import opened Outcomes
  import opened Text
  import opened PyErrors
  import opened Ndc

  const NotFound := "データが見つかりませんでした"
  const ApiError := "APIエラー"
  const Failed := "エラーが発生しました"
  const UnknownTitle := "タイトル不明"
  const UnknownAuthor := "著者情報不明"

  /** The titles after which the search button asks the second source. */
  const Sentinels: seq<string> := [NotFound, ApiError, Failed]

  /** `(title, author, ndc)`; `None` is Python's `None`. */
  datatype Triple = Triple(title: string, author: Option<string>, ndc: Option<string>)

  /** A body the parser rejects, or whose `rss.channel` cannot be read,
      stands as the message of the exception that raises. */
  datatype NdlBody = NdlUnparsable(message: string) | Rss(channel: Channel)
  datatype NdlReply = NdlUnreachable(message: string) | NdlAnswer(status: nat, body: NdlBody)

  /** The `authors` value of a Google Books volume: a string, or a list of
      names (the shape the service sends). */
  datatype Authors = AuthorText(text: string) | AuthorList(names: seq<string>)
  datatype ImageLinks = ImageLinks(thumbnail: Option<string>)
  /** `volumeInfo`: the empty mapping, or a mapping with some keys. */
  datatype VolumeInfo =
    | NoFields
    | Info(title: Option<string>, authors: Option<Authors>, imageLinks: Option<ImageLinks>)
  datatype Volume = Volume(volumeInfo: Option<VolumeInfo>)
  datatype BooksBody = BooksUnparsable(message: string) | Volumes(items: Option<seq<Volume>>)
  datatype BooksReply = BooksUnreachable(message: string) | BooksAnswer(status: nat, body: BooksBody)

  /** What the `except Exception as e` clause returns. */
  function Trouble(e: PyError): Triple {
    Triple(Failed, Some(Message(e)), None)
  }

  /** The record part of `fetch_book_info`, once the answer is a parsed
      200. A list of items is not a mapping, so `record.get` raises. */
  function FromChannel(c: Channel): Triple {
    match c
    case NoItem => Triple(NotFound, None, None)
    case Many(items) =>
      if |items| == 0 then Triple(NotFound, None, None)
      else Trouble(AttributeError("list", "get"))
    case Single(it) =>
      var title := it.title.GetOr(UnknownTitle);
      var creator := LastSegment(it.author.GetOr(UnknownAuthor), ',');
      match GetNdc(c)
      case Success(ndc) => Triple(title, Some(creator), Some(ndc))
      case Failure(e) => Trouble(e)
  }

  /** The answer is a 200 whose body parsed to a channel. */
  predicate ParsedNdl(reply: NdlReply) {
    reply.NdlAnswer? && reply.status == 200 && reply.body.Rss?
  }

  /** `fetch_book_info`, case by case. */
  function FetchBookInfo(reply: NdlReply): (t: Triple)
    ensures reply.NdlUnreachable? ==> t == Trouble(Raised(reply.message))
    ensures reply.NdlAnswer? && reply.status != 200 ==> t == Triple(ApiError, Some(Decimal(reply.status)), None)
    ensures reply.NdlAnswer? && reply.status == 200 && reply.body.NdlUnparsable? ==>
              t == Trouble(Raised(reply.body.message))
    ensures ParsedNdl(reply) && (reply.body.channel == NoItem || reply.body.channel == Many([])) ==>
              t == Triple(NotFound, None, None)
    ensures ParsedNdl(reply) && reply.body.channel.Many? && |reply.body.channel.items| > 0 ==>
              t == Trouble(AttributeError("list", "get"))
    ensures ParsedNdl(reply) && reply.body.channel.Single? && GetNdc(reply.body.channel).Failure? ==>
              t == Trouble(GetNdc(reply.body.channel).error)
    ensures t.ndc.None? ==> t.title in Sentinels
    ensures t.ndc.Some? ==>
              && ParsedNdl(reply) && reply.body.channel.Single?
              && GetNdc(reply.body.channel) == Success(t.ndc.value)
              && t.title == reply.body.channel.item.title.GetOr(UnknownTitle)
              && t.author.Some? && ',' !in t.author.value
  {
    match reply
    case NdlUnreachable(m) => Trouble(Raised(m))
    case NdlAnswer(status, body) =>
      if status != 200 then Triple(ApiError, Some(Decimal(status)), None)
      else match body
        case NdlUnparsable(m) => Trouble(Raised(m))
        case Rss(c) => FromChannel(c)
  }

  /** A record found by the national library: its title (or the default),
      the last comma-separated part of its author, and its classification. */
  lemma RecordFound(it: Item, ndc: string)
    requires GetNdc(Single(it)) == Success(ndc)
    ensures FetchBookInfo(NdlAnswer(200, Rss(Single(it)))) ==
      Triple(it.title.GetOr(UnknownTitle), Some(LastSegment(it.author.GetOr(UnknownAuthor), ',')), Some(ndc))
  {
  }

  /** A record without an author reports the default author text. */
  lemma MissingAuthor(it: Item)
    requires it.author.None? && GetNdc(Single(it)).Success?
    ensures FetchBookInfo(NdlAnswer(200, Rss(Single(it)))).author == Some(UnknownAuthor)
  {
  }

  /** An answer that lists several items always ends in the error triple,
      so the list branch of the classification scan is never reached from
      here and the second source is asked. */
  lemma ManyItemsFail(items: seq<Item>)
    requires |items| > 0
    ensures FetchBookInfo(NdlAnswer(200, Rss(Many(items)))) == Trouble(AttributeError("list", "get"))
  {
  }

  /** `data["items"][0]["volumeInfo"]`. */
  function FirstVolumeInfo(items: Option<seq<Volume>>): Result<VolumeInfo, PyError> {
    match items
    case None => Failure(KeyError("items"))
    case Some(vs) =>
      if |vs| == 0 then Failure(IndexError)
      else match vs[0].volumeInfo
        case None => Failure(KeyError("volumeInfo"))
        case Some(info) => Success(info)
  }

  /** The outcome of `data["items"][0]["volumeInfo"]` on a 200 answer whose
      body parsed; `None` for any other reply. */
  function RecordOf(reply: BooksReply): Option<Result<VolumeInfo, PyError>> {
    if reply.BooksAnswer? && reply.status == 200 && reply.body.Volumes? then
      Some(FirstVolumeInfo(reply.body.items))
    else None
  }

  /** The record reply: `volumeInfo` was reached and is a non-empty mapping. */
  predicate HasRecord(reply: BooksReply) {
    RecordOf(reply).Some? && RecordOf(reply).value.Success? && RecordOf(reply).value.value.Info?
  }

  /** The `authors` value the lookup reads, when there is one. */
  function AuthorsOf(reply: BooksReply): Option<Authors> {
    if HasRecord(reply) then RecordOf(reply).value.value.authors else None
  }

  /** What both readings of `fetch_book_info2` promise, whatever the author
      extraction does: every outcome other than the record. */
  predicate VolumeLookup(reply: BooksReply, t: Triple) {
    && (reply.BooksUnreachable? ==> t == Trouble(Raised(reply.message)))
    && (reply.BooksAnswer? && reply.status != 200 ==> t == Triple(ApiError, Some(Decimal(reply.status)), None))
    && (reply.BooksAnswer? && reply.status == 200 && reply.body.BooksUnparsable? ==>
          t == Trouble(Raised(reply.body.message)))
    && (reply == BooksAnswer(200, Volumes(None)) ==> t == Trouble(KeyError("items")))
    && (reply == BooksAnswer(200, Volumes(Some([]))) ==> t == Trouble(IndexError))
    && (RecordOf(reply).Some? && RecordOf(reply).value.Failure? ==> t == Trouble(RecordOf(reply).value.error))
    && (RecordOf(reply) == Some(Success(NoFields)) ==> t == Triple(NotFound, None, None))
    && (HasRecord(reply) && t.ndc.Some? ==> t.title == RecordOf(reply).value.value.title.GetOr(UnknownTitle))
    && (t.ndc.None? ==> t.title in Sentinels)
    && (t.ndc.Some? ==> HasRecord(reply) && t.ndc == Some(NdcUnknown) && t.author.Some?)
  }

  /** The body of `fetch_book_info2` with the author extraction as a
      parameter, so the code as written and the corrected reading share it. */
  function FetchVolume(reply: BooksReply, author: Option<Authors> -> Result<string, PyError>): (t: Triple)
    ensures VolumeLookup(reply, t)
    ensures HasRecord(reply) ==>
              match author(AuthorsOf(reply))
              case Failure(e) => t == Trouble(e)
              case Success(a) => t.author == Some(a) && t.ndc == Some(NdcUnknown)
  {
    match reply
    case BooksUnreachable(m) => Trouble(Raised(m))
    case BooksAnswer(status, body) =>
      if status != 200 then Triple(ApiError, Some(Decimal(status)), None)
      else match body
        case BooksUnparsable(m) => Trouble(Raised(m))
        case Volumes(items) =>
          match FirstVolumeInfo(items)
          case Failure(e) => Trouble(e)
          case Success(NoFields) => Triple(NotFound, None, None)
          case Success(Info(title, authors, _)) =>
            match author(authors)
            case Failure(e) => Trouble(e)
            case Success(a) => Triple(title.GetOr(UnknownTitle), Some(a), Some(NdcUnknown))
  }

  /** `record.get("authors", "著者情報不明").split(",")[-1]` as written: a
      list has no `split`. */
  function AuthorAsWritten(authors: Option<Authors>): Result<string, PyError> {
    match authors
    case None => Success(LastSegment(UnknownAuthor, ','))
    case Some(AuthorText(s)) => Success(LastSegment(s, ','))
    case Some(AuthorList(_)) => Failure(AttributeError("list", "split"))
  }

  /** The author as evidently intended: the last comma-separated part of a
      text, the last name of a list, the default when there is none. */
  function AuthorIntended(authors: Option<Authors>): (r: Result<string, PyError>)
    ensures r.Success?
    ensures authors.Some? && authors.value.AuthorList? && |authors.value.names| > 0 ==>
              r.value == authors.value.names[|authors.value.names| - 1]
    ensures authors.Some? && authors.value.AuthorText? ==> ',' !in r.value
  {
    match authors
    case None => Success(UnknownAuthor)
    case Some(AuthorText(s)) => Success(LastSegment(s, ','))
    case Some(AuthorList(names)) =>
      if |names| == 0 then Success(UnknownAuthor) else Success(names[|names| - 1])
  }

  /** `fetch_book_info2` as written: a record whose `authors` is a list ends
      in the error triple, any other record gives its title, the last
      comma-separated part of its author and the "unknown" classification. */
  function FetchBookInfo2AsWritten(reply: BooksReply): (t: Triple)
    ensures VolumeLookup(reply, t)
    ensures HasRecord(reply) && AuthorsOf(reply).Some? && AuthorsOf(reply).value.AuthorList? ==>
              t == Trouble(AttributeError("list", "split"))
    ensures HasRecord(reply) && AuthorsOf(reply).None? ==>
              t.ndc == Some(NdcUnknown) && t.author == Some(UnknownAuthor)
    ensures HasRecord(reply) && AuthorsOf(reply).Some? && AuthorsOf(reply).value.AuthorText? ==>
              t.ndc == Some(NdcUnknown) && t.author == Some(LastSegment(AuthorsOf(reply).value.text, ','))
  {
    LastSegmentWithoutSeparator(UnknownAuthor, ',');
    FetchVolume(reply, AuthorAsWritten)
  }

  /** As written, a volume whose `authors` is a list ends in the error
      triple instead of yielding the record. */
  lemma AuthorListRaises(title: string, names: seq<string>)
    ensures FetchBookInfo2AsWritten(BooksAnswer(200, Volumes(Some([Volume(Some(Info(Some(title), Some(AuthorList(names)), None)))])))) ==
      Trouble(AttributeError("list", "split"))
  {
  }

  /** `fetch_book_info2` with the author extraction corrected: every record
      gives its title, its author as `AuthorIntended` reads it, and the
      "unknown" classification, since the second source has none. */
  function FetchBookInfo2(reply: BooksReply): (t: Triple)
    ensures VolumeLookup(reply, t)
    ensures HasRecord(reply) ==>
              t.ndc == Some(NdcUnknown) && t.author == Some(AuthorIntended(AuthorsOf(reply)).value)
  {
    FetchVolume(reply, AuthorIntended)
  }

  /** Corrected, a volume with a list of authors yields its title and its
      last author. */
  lemma AuthorListYieldsLastAuthor(title: string, names: seq<string>)
    requires |names| > 0
    ensures FetchBookInfo2(BooksAnswer(200, Volumes(Some([Volume(Some(Info(Some(title), Some(AuthorList(names)), None)))])))) ==
      Triple(title, Some(names[|names| - 1]), Some(NdcUnknown))
  {
  }

  /** The lookup reads the author extraction only on the record's
      `authors`: two extractions that agree there give the same triple. */
  lemma SameAuthorSameVolume(reply: BooksReply, f: Option<Authors> -> Result<string, PyError>,
                             g: Option<Authors> -> Result<string, PyError>)
    requires HasRecord(reply) ==> f(AuthorsOf(reply)) == g(AuthorsOf(reply))
    ensures FetchVolume(reply, f) == FetchVolume(reply, g)
  {
    if HasRecord(reply) {
      var info := RecordOf(reply).value.value;
      assert FetchVolume(reply, f) ==
        match f(info.authors)
        case Failure(e) => Trouble(e)
        case Success(a) => Triple(info.title.GetOr(UnknownTitle), Some(a), Some(NdcUnknown));
    }
  }

  /** The two readings differ only on a list of authors. */
  lemma CorrectionOnlyTouchesAuthorLists(reply: BooksReply)
    requires !(AuthorsOf(reply).Some? && AuthorsOf(reply).value.AuthorList?)
    ensures FetchBookInfo2(reply) == FetchBookInfo2AsWritten(reply)
  {
    LastSegmentWithoutSeparator(UnknownAuthor, ',');
    if HasRecord(reply) {
      assert AuthorAsWritten(AuthorsOf(reply)) == AuthorIntended(AuthorsOf(reply));
    }
    SameAuthorSameVolume(reply, AuthorAsWritten, AuthorIntended);
  }

  /** The rule of the search button: keep the first triple unless its title
      is one of the failure texts. */
  function Fallback(first: Triple, second: Triple): Triple {
    if first.title in Sentinels then second else first
  }

  /** The search button as written (app.py:196-198): ask the national
      library, and ask Google Books, through `fetch_book_info2` as written,
      exactly when the first title is a failure text. */
  function Resolve(primary: NdlReply, secondary: BooksReply): (t: Triple)
    ensures FetchBookInfo(primary).title in Sentinels ==> t == FetchBookInfo2AsWritten(secondary)
    ensures FetchBookInfo(primary).title !in Sentinels ==> t == FetchBookInfo(primary)
    ensures t.ndc.Some? && t.ndc != Some(NdcUnknown) ==> t == FetchBookInfo(primary)
    ensures t.title !in Sentinels ==> t.ndc.Some?
  {
    Fallback(FetchBookInfo(primary), FetchBookInfo2AsWritten(secondary))
  }

  /** The search button with the corrected Google Books lookup. */
  function ResolveIntended(primary: NdlReply, secondary: BooksReply): (t: Triple)
    ensures FetchBookInfo(primary).title in Sentinels ==> t == FetchBookInfo2(secondary)
    ensures FetchBookInfo(primary).title !in Sentinels ==> t == FetchBookInfo(primary)
    ensures t.ndc.Some? && t.ndc != Some(NdcUnknown) ==> t == FetchBookInfo(primary)
    ensures t.title !in Sentinels ==> t.ndc.Some?
  {
    Fallback(FetchBookInfo(primary), FetchBookInfo2(secondary))
  }

  /** The search as written and as intended agree unless Google Books is
      asked and answers with a list of authors. */
  lemma ResolveCorrectionOnlyTouchesAuthorLists(primary: NdlReply, secondary: BooksReply)
    requires !(AuthorsOf(secondary).Some? && AuthorsOf(secondary).value.AuthorList?)
    ensures Resolve(primary, secondary) == ResolveIntended(primary, secondary)
  {
    CorrectionOnlyTouchesAuthorLists(secondary);
  }

  /** After a failed first lookup, a Google Books volume with a list of
      authors gives the error triple as written, and the record as
      intended. */
  lemma ResolveDiffersOnAuthorList(primary: NdlReply, title: string, names: seq<string>)
    requires FetchBookInfo(primary).title in Sentinels && |names| > 0
    ensures var s := BooksAnswer(200, Volumes(Some([Volume(Some(Info(Some(title), Some(AuthorList(names)), None)))])));
            Resolve(primary, s) == Trouble(AttributeError("list", "split"))
            && ResolveIntended(primary, s) == Triple(title, Some(names[|names| - 1]), Some(NdcUnknown))
  {
    AuthorListRaises(title, names);
    AuthorListYieldsLastAuthor(title, names);
  }

  /** Google Books is consulted exactly when the first title is a failure
      text: only then can the second answer change the result. */
  lemma SecondaryConsultedIff(primary: NdlReply)
    ensures FetchBookInfo(primary).title in Sentinels <==>
      exists s1, s2 :: Resolve(primary, s1) != Resolve(primary, s2)
  {
    if FetchBookInfo(primary).title in Sentinels {
      var s1, s2 := BooksUnreachable("a"), BooksUnreachable("b");
      assert Resolve(primary, s1).author == Some("a");
      assert Resolve(primary, s2).author == Some("b");
    }
  }

  /** When the first title is not a failure text, the second answer is
      irrelevant. */
  lemma SecondaryIgnored(primary: NdlReply, s1: BooksReply, s2: BooksReply)
    requires FetchBookInfo(primary).title !in Sentinels
    ensures Resolve(primary, s1) == Resolve(primary, s2) == FetchBookInfo(primary)
  {
  }

  /** An unreachable national library or a non-200 answer falls through to
      Google Books, whose records never carry a classification. */
  lemma PrimaryFailureFallsThrough(primary: NdlReply, secondary: BooksReply)
    requires primary.NdlUnreachable? || primary.status != 200
    ensures Resolve(primary, secondary) == FetchBookInfo2AsWritten(secondary)
    ensures Resolve(primary, secondary).ndc.Some? ==> Resolve(primary, secondary).ndc == Some(NdcUnknown)
  {
  }

  /** A national-library record with a classification is kept, whatever
      Google Books would say, unless its title happens to be a failure
      text. */
  lemma PrimaryRecordKept(it: Item, ndc: string, secondary: BooksReply)
    requires GetNdc(Single(it)) == Success(ndc)
    requires it.title.GetOr(UnknownTitle) !in Sentinels
    ensures Resolve(NdlAnswer(200, Rss(Single(it))), secondary).ndc == Some(ndc)
  {
  }
}

=== FILE: isbn.dfy ===
/** `isbn_checker` (app.py): normalise what the user typed to its digits
    and accept it when it has the shape of an ISBN-10 or an ISBN-13. The
    ISO 2108 check digit is not examined. */
module Isbn {
  import opened Text

  const WrongLength := "不適切な桁数です"
  const BadPrefix := "13桁ですが先頭3桁が不適切な数字です"

  /** The ISBN-13 prefixes (EAN "Bookland") the checker admits. */
  predicate BooklandPrefix(d: string) {
    "978" <= d || "979" <= d
  }

  /** A digit string the checker accepts. */
  predicate Acceptable(d: string) {
    |d| == 10 || (|d| == 13 && BooklandPrefix(d))
  }

  /** The checker's answer: `(True, digits)` or `(False, message)`. */
  function IsbnChecker(isbn: string): (r: (bool, string))
    ensures r.0 <==> Acceptable(Digits(isbn))
    ensures r.0 ==> r.1 == Digits(isbn) && AllDigits(r.1)
    ensures !r.0 && r.1 == WrongLength <==> |Digits(isbn)| != 10 && |Digits(isbn)| != 13
    ensures !r.0 && r.1 == BadPrefix <==> |Digits(isbn)| == 13 && !BooklandPrefix(Digits(isbn))
  {
    var digits := Digits(isbn);
    if |digits| != 10 && |digits| != 13 then (false, WrongLength)
    else if |digits| == 13 && !BooklandPrefix(digits) then (false, BadPrefix)
    else (true, digits)
  }

  /** The verdict depends on the digits alone: separators, spaces and any
      other non-digit characters are ignored. */
  lemma OnlyDigitsMatter(isbn: string)
    ensures IsbnChecker(isbn) == IsbnChecker(Digits(isbn))
  {
    DigitsIdempotent(isbn);
  }

  /** Inserting a hyphen between two parts does not change the verdict. */
  lemma HyphensIgnored(a: string, b: string)
    ensures IsbnChecker(a + "-" + b) == IsbnChecker(a + b)
  {
    DigitsAppend(a + "-", b);
    DigitsAppend(a, "-");
    DigitsOfChar('-');
    DigitsAppend(a, b);
    assert Digits(a + "-") == Digits(a);
  }

  /** An accepted ISBN is a fixed point: checking the normalised form again
      accepts it and returns it unchanged. */
  lemma AcceptedIsFixedPoint(isbn: string)
    ensures IsbnChecker(isbn).0 ==> IsbnChecker(IsbnChecker(isbn).1) == IsbnChecker(isbn)
  {
    DigitsIdempotent(isbn);
  }

  /** A well-formed ISBN-13 is accepted whatever its last digit; the ISO
      2108 check digit is not verified. */
  lemma CheckDigitIgnored(body: string, last: char)
    requires |body| == 12 && AllDigits(body) && BooklandPrefix(body)
    requires IsDigit(last)
    ensures IsbnChecker(body + [last]) == (true, body + [last])
  {
    var d := body + [last];
    assert AllDigits(d) by {
      forall i | 0 <= i < |d| ensures IsDigit(d[i]) {
        if i < 12 { assert d[i] == body[i]; }
      }
    }
    DigitsOfDigits(d);
    assert d[..3] == body[..3];
  }
}

=== FILE: ndc.dfy ===
/** The classification scan shared by `get_ndc` (app.py) and
    `get_ndc_from_isbn` (IsbnToNdc.py), over the parsed shape of the
    national library's OpenSearch answer, `rss.channel.item`. The two
    routines are the same scan; they differ only in the text returned when
    no classification is found, so that text is a parameter here. */
module Ndc {
  import opened Outcomes
  import opened Text
  import opened PyErrors

  /** The `xsi:type` marker of an NDC (Nippon Decimal Classification)
      subject, as in "dcndl:NDC9" or "dcndl:NDC10". */
  const NdcMarker := "dcndl:NDC"
  const NoItemText := "No item"
  /** The empty-case text of `get_ndc`. */
  const NdcUnknown := "NDC分類不明"

  /** One entry of a `dc:subject` list: a non-mapping value (a plain
      string, or anything else that is not a dict) or a mapping with
      optional `@xsi:type` and `#text` keys. */
  datatype SubjectEntry =
    | Plain(text: string)
    | Typed(xsiType: Option<string>, body: Option<string>)

  /** A `dc:subject` element parses to one entry when it occurs once and to
      a list of entries when it repeats. */
  datatype Subject = One(entry: SubjectEntry) | Several(entries: seq<SubjectEntry>)

  datatype Item = Item(title: Option<string>, author: Option<string>, subject: Option<Subject>)

  /** The `item` of a channel: absent, one mapping, or a list of mappings. */
  datatype Channel = NoItem | Single(item: Item) | Many(items: seq<Item>)

  /** What `for i in subject` walks over. A single string yields its
      characters and a single mapping yields its keys, all of them strings,
      so neither is ever a mapping entry. */
  function Visited(s: Subject): (es: seq<SubjectEntry>)
    ensures s.One? ==> forall k :: 0 <= k < |es| ==> es[k].Plain?
    ensures s.Several? ==> es == s.entries
  {
    match s
    case Several(es) => es
    case One(Plain(t)) => seq(|t|, k requires 0 <= k < |t| => Plain([t[k]]))
    case One(Typed(ty, body)) =>
      (if ty.Some? then [Plain("@xsi:type")] else []) + (if body.Some? then [Plain("#text")] else [])
  }

  /** How a scan of subject entries ends: with the text of a qualifying
      entry, having found none, or on an exception. */
  datatype Scan = Hit(text: string) | Miss | Stopped(error: PyError)

  /** What one entry does to the scan: `None` when the scan moves past it,
      otherwise how the scan ends there. */
  function Verdict(e: SubjectEntry): Option<Scan> {
    match e
    case Plain(_) => None
    case Typed(ty, body) =>
      if ty.None? then Some(Stopped(KeyError("@xsi:type")))
      else if !Contains(ty.value, NdcMarker) then None
      else if body.None? then Some(Stopped(KeyError("#text")))
      else Some(Hit(body.value))
  }

  /** The inner `for ... break` loop: the first entry that stops the scan
      decides it; when none does, nothing was found. */
  function ScanEntries(es: seq<SubjectEntry>): (r: Scan)
    ensures r == Miss <==> forall j :: 0 <= j < |es| ==> Verdict(es[j]).None?
    ensures r != Miss ==>
              exists k :: 0 <= k < |es| && Verdict(es[k]) == Some(r)
                          && (forall j :: 0 <= j < k ==> Verdict(es[j]).None?)
    decreases |es|
  {
    if |es| == 0 then Miss
    else match Verdict(es[0])
      case Some(v) => v
      case None =>
        var r := ScanEntries(es[1..]);
        assert forall j :: 0 < j < |es| ==> es[j] == es[1..][j - 1];
        r
  }

  /** Scanning one item. The single-item branch indexes `dc:subject`
      unconditionally; the list branch skips an item without one. */
  function ItemScan(it: Item, inList: bool): Scan {
    match it.subject
    case None => if inList then Miss else Stopped(KeyError("dc:subject"))
    case Some(s) => ScanEntries(Visited(s))
  }

  /** The outer loop over a list of items. The result is reset for every
      item, so the scan ends with the last item, unless an item's scan
      raises first. */
  function ScanMany(items: seq<Item>): (r: Scan)
    requires |items| > 0
    ensures exists k :: 0 <= k < |items| && r == ItemScan(items[k], true)
                        && (k == |items| - 1 || r.Stopped?)
                        && (forall j :: 0 <= j < k ==> !ItemScan(items[j], true).Stopped?)
    decreases |items|
  {
    var s := ItemScan(items[0], true);
    if |items| == 1 || s.Stopped? then s
    else
      var r := ScanMany(items[1..]);
      assert forall j :: 0 < j < |items| ==> items[j] == items[1..][j - 1];
      r
  }

  /** `ndc if ndc else unknown`, or the exception that ended the scan. */
  function Settle(s: Scan, unknown: string): Result<string, PyError> {
    match s
    case Hit(t) => if t != "" then Success(t) else Success(unknown)
    case Miss => Success(unknown)
    case Stopped(e) => Failure(e)
  }

  /** The whole routine, with `unknown` the text for "no classification".
      An empty item list leaves the result variable unassigned. */
  function Classify(c: Channel, unknown: string): (r: Result<string, PyError>)
    ensures c.NoItem? ==> r == Success(NoItemText)
    ensures c == Many([]) ==> r == Failure(UnboundLocal("ndc"))
    ensures r.Success? && unknown != "" ==> r.value != ""
  {
    match c
    case NoItem => Success(NoItemText)
    case Single(it) => Settle(ItemScan(it, false), unknown)
    case Many(items) =>
      if |items| == 0 then Failure(UnboundLocal("ndc"))
      else Settle(ScanMany(items), unknown)
  }

  /** `get_ndc` (app.py). */
  function GetNdc(c: Channel): Result<string, PyError> {
    Classify(c, NdcUnknown)
  }

  /** An entry qualifies when it is a mapping whose `@xsi:type` contains the
      NDC marker. */
  predicate Qualifies(e: SubjectEntry) {
    e.Typed? && e.xsiType.Some? && Contains(e.xsiType.value, NdcMarker)
  }

  /** An entry the scan steps over without raising. */
  predicate Skipped(e: SubjectEntry) {
    e.Plain? || (e.xsiType.Some? && !Contains(e.xsiType.value, NdcMarker))
  }

  /** A single item: the first qualifying subject entry, past entries that
      are skipped, gives the classification, or the "unknown" text when its
      `#text` is empty. */
  lemma FirstQualifyingEntryWins(it: Item, es: seq<SubjectEntry>, k: nat, unknown: string)
    requires it.subject == Some(Several(es))
    requires k < |es| && Qualifies(es[k]) && es[k].body.Some?
    requires forall j :: 0 <= j < k ==> Skipped(es[j])
    ensures Classify(Single(it), unknown) ==
            Success(if es[k].body.value != "" then es[k].body.value else unknown)
  {
  }


  /** A single item whose subject entries are all skipped yields the
      "unknown" text. */
  lemma NoQualifyingEntry(it: Item, es: seq<SubjectEntry>, unknown: string)
    requires it.subject == Some(Several(es))
    requires forall j :: 0 <= j < |es| ==> Skipped(es[j])
    ensures Classify(Single(it), unknown) == Success(unknown)
  {
  }

  /** A `dc:subject` that occurs once is never a classification, whatever it
      holds: iterating it visits strings only. A single item with it gives
      the "unknown" text, and in a list it scans as finding nothing. */
  lemma OneSubjectNeverMatches(it: Item, unknown: string)
    requires it.subject.Some? && it.subject.value.One?
    ensures ScanEntries(Visited(it.subject.value)) == Miss
    ensures ItemScan(it, true) == Miss
    ensures Classify(Single(it), unknown) == Success(unknown)
  {
    assert forall k :: 0 <= k < |Visited(it.subject.value)| ==> Verdict(Visited(it.subject.value)[k]).None?;
  }

  /** A mapping entry reached by the scan that lacks `@xsi:type`, or that
      qualifies but lacks `#text`, raises `KeyError` for that key. */
  lemma MalformedEntryRaises(it: Item, es: seq<SubjectEntry>, k: nat, unknown: string)
    requires it.subject == Some(Several(es))
    requires k < |es| && es[k].Typed? && (es[k].xsiType.None? || (Qualifies(es[k]) && es[k].body.None?))
    requires forall j :: 0 <= j < k ==> Skipped(es[j])
    ensures es[k].xsiType.None? ==> Classify(Single(it), unknown) == Failure(KeyError("@xsi:type"))
    ensures es[k].xsiType.Some? ==> Classify(Single(it), unknown) == Failure(KeyError("#text"))
  {
  }

  /** In the single-item branch a missing `dc:subject` raises. */
  lemma SingleItemNeedsSubject(it: Item, unknown: string)
    requires it.subject.None?
    ensures Classify(Single(it), unknown) == Failure(KeyError("dc:subject"))
  {
  }

  /** A list of items: when no earlier item raises, the last item alone
      decides, as if it were the only item listed. */
  lemma LastItemDecides(items: seq<Item>, unknown: string)
    requires |items| > 0
    requires forall j :: 0 <= j < |items| - 1 ==> !ItemScan(items[j], true).Stopped?
    ensures Classify(Many(items), unknown) == Classify(Many([items[|items| - 1]]), unknown)
  {
  }

  /** A list of items classifies as its last item would alone: as that item
      in the single-item branch when it has a `dc:subject`, and as "unknown"
      when it has none, since the list branch steps over it. */
  lemma ListClassifiesAsLastItem(items: seq<Item>, unknown: string)
    requires |items| > 0
    requires forall j :: 0 <= j < |items| - 1 ==> !ItemScan(items[j], true).Stopped?
    ensures items[|items| - 1].subject.Some? ==>
              Classify(Many(items), unknown) == Classify(Single(items[|items| - 1]), unknown)
    ensures items[|items| - 1].subject.None? ==> Classify(Many(items), unknown) == Success(unknown)
  {
    LastItemDecides(items, unknown);
  }

  /** Earlier matches are discarded: an item with a classification followed
      by one without any `dc:subject` yields the "unknown" text. */
  lemma EarlierMatchDiscarded(first: Item, last: Item, unknown: string)
    requires ItemScan(first, true).Hit?
    requires last.subject.None?
    ensures Classify(Many([first, last]), unknown) == Success(unknown)
  {
  }

  /** The two routines differ only in the "unknown" text: on every channel
      they return the same, except where one returns its own "unknown" text
      and the other returns its own. */
  lemma SentinelIsTheOnlyDifference(c: Channel, u1: string, u2: string)
    ensures Classify(c, u1) == Classify(c, u2) ||
      (Classify(c, u1) == Success(u1) && Classify(c, u2) == Success(u2))
  {
  }
}

=== FILE: ndc_batch.dfy ===
/** `get_ndc_from_isbn` of IsbnToNdc.py and the category lookup its batch
    loop applies to each result. The request either raised a
    `RequestException` (a transport failure, or an error status turned into
    one by `raise_for_status`), or gave a body the XML parser rejected, or
    gave a parsed channel. Only the `RequestException` is caught: a parse
    error and the exceptions of the scan stay `Failure` values. */
module NdcBatch {
  import opened Outcomes
  import opened Text
  import opened PyErrors
  import opened Ndc
  import opened NdcMajor

  /** The empty-case text of this routine. */
  const NoData := "No data"
  const RequestFailedPrefix := "エラーが発生しました: "

  datatype Fetched = RequestFailed(message: string) | Unparsable(message: string) | Parsed(channel: Channel)

  /** `get_ndc_from_isbn`. Its result is never empty, so the batch loop can
      always take its first character. */
  function NdcFromIsbn(f: Fetched): (r: Result<string, PyError>)
    ensures r.Success? ==> |r.value| > 0
    ensures f.RequestFailed? ==> r == Success(RequestFailedPrefix + f.message)
    ensures f.Unparsable? ==> r == Failure(Raised(f.message))
    ensures f.Parsed? ==> r.Success? || r.error.KeyError? || r.error.UnboundLocal?
    ensures f.Parsed? && r.Success? && r.value != NoData ==> r == GetNdc(f.channel)
  {
    match f
    case RequestFailed(m) => Success(RequestFailedPrefix + m)
    case Unparsable(m) => Failure(Raised(m))
    case Parsed(c) => Classify(c, NoData)
  }

  /** On every parsed channel this routine agrees with `get_ndc` of app.py
      except that it says "No data" where that says "NDC分類不明". */
  lemma AgreesWithGetNdc(c: Channel)
    ensures NdcFromIsbn(Parsed(c)) == GetNdc(c)
            || (GetNdc(c) == Success(NdcUnknown) && NdcFromIsbn(Parsed(c)) == Success(NoData))
  {
  }

  /** A channel without an item: "No item", whose category is empty. */
  lemma NoItemHasEmptyCategory()
    ensures NdcFromIsbn(Parsed(NoItem)) == Success(NoItemText)
    ensures MajorOf(NdcFromIsbn(Parsed(NoItem)).value) == ""
  {
  }

  /** A caught request failure starts with 'エ', which is not a key of the
      category table: the batch loop raises `KeyError` on it. */
  lemma RequestFailureHasNoCategory(m: string)
    ensures [NdcFromIsbn(RequestFailed(m)).value[0]] !in NdcMajorDict
  {
  }

  /** A classification found by the scan that begins with an ASCII digit gets
      that digit's category. */
  lemma FoundCodeCategory(c: Channel, code: string)
    requires NdcFromIsbn(Parsed(c)) == Success(code) && |code| > 0 && IsAsciiDigit(code[0])
    ensures [code[0]] in NdcMajorDict
    ensures MajorOf(code) == MajorChoices[DigitValue(code[0])]
  {
  }
}

=== FILE: ndc_major.dfy ===
/** The eleven NDC major categories, in both spellings the repository
    uses: the select-box choices of app.py, indexed by the first digit of
    the classification, and `ndc_major_dict` of IsbnToNdc.py, keyed by the
    first character of the lookup result. */
module NdcMajor {
  import opened Outcomes
  import opened Text
  import opened Ndc

  /** The select-box choices; the last one stands for "no classification". */
  const MajorChoices: seq<string> :=
    ["0: 総記", "1: 哲学", "2: 歴史", "3: 社会科学", "4: 自然科学", "5: 技術",
     "6: 産業", "7: 芸術", "8: 言語", "9: 文学", "No Data"]

  const NoDataIndex := 10

  /** `ndc_major_dict`: the same labels keyed by digit, and "N" (the first
      letter of "No item" and "No data") sent to the empty label. */
  const NdcMajorDict: map<string, string> :=
    map["0" := "0: 総記", "1" := "1: 哲学", "2" := "2: 歴史", "3" := "3: 社会科学",
        "4" := "4: 自然科学", "5" := "5: 技術", "6" := "6: 産業", "7" := "7: 芸術",
        "8" := "8: 言語", "9" := "9: 文学", "N" := ""]

  /** The classification values the select box treats as absent. */
  predicate IsMissing(ndc: Option<string>) {
    ndc == None || ndc == Some("") || ndc == Some(NdcUnknown)
  }

  /** The index expression does not raise: either the value is absent or
      `int(ndc[0])` parses. */
  predicate IndexDefined(ndc: Option<string>) {
    IsMissing(ndc) || IsDigit(ndc.value[0])
  }

  /** The select-box index of app.py: "No Data" for an absent
      classification, otherwise the value of its first digit. */
  function MajorIndex(ndc: Option<string>): (i: nat)
    requires IndexDefined(ndc)
    ensures i < |MajorChoices|
    ensures i == NoDataIndex <==> IsMissing(ndc)
    ensures !IsMissing(ndc) ==> i == DigitValue(ndc.value[0])
  {
    if IsMissing(ndc) then NoDataIndex else DigitValue(ndc.value[0])
  }

  /** The choice selected for a classification is the category of its first
      digit: its label begins with that digit and ": ". */
  lemma MajorChoiceNamesDigit(ndc: Option<string>)
    requires IndexDefined(ndc) && !IsMissing(ndc)
    ensures MajorChoices[MajorIndex(ndc)][..3] == [DigitChar(DigitValue(ndc.value[0]))] + ": "
  {
  }

  /** `ndc_major_dict[result[0]]`. */
  function MajorOf(result: string): (category: string)
    requires |result| > 0 && [result[0]] in NdcMajorDict
    ensures category == "" <==> result[0] == 'N'
    ensures IsAsciiDigit(result[0]) ==> category == MajorChoices[DigitValue(result[0])]
  {
    var c := result[0];
    assert c in "0123456789N" by {
      assert [c] in NdcMajorDict.Keys;
    }
    NdcMajorDict[[c]]
  }

  /** Both sentinel results of the batch lookup have the empty label. */
  lemma SentinelsHaveEmptyLabel()
    ensures MajorOf(NoItemText) == ""
    ensures MajorOf("No data") == ""
  {
  }

  /** The two spellings agree on every classification that begins with an
      ASCII digit. */
  lemma SpellingsAgree(ndc: string)
    requires |ndc| > 0 && IsAsciiDigit(ndc[0])
    ensures [ndc[0]] in NdcMajorDict
    ensures MajorOf(ndc) == MajorChoices[MajorIndex(Some(ndc))]
  {
  }
}

=== FILE: outcomes.dfy ===
/** Optional values and results, the shapes the modelled code returns in
    place of Python's `None` and of a raised exception. */
module Outcomes {

  /** A value that may be absent: a missing key or Python's `None`. */
  datatype Option<T> = None | Some(value: T) {

    /** The value, or `default` when absent, as `d.get(key, default)` reads. */
    function GetOr(default: T): T {
      if Some? then value else default
    }
  }

  /** Either a value or the exception that stopped the computation. */
  datatype Result<T, E> = Success(value: T) | Failure(error: E)
}

=== FILE: pyerrors.dfy ===
/** The Python exceptions the modelled routines can raise, and the text
    `f"{e}"` gives for each, which is what the lookup routines hand back to
    the user when they catch one. */
module PyErrors {

  datatype PyError =
    /** `d[key]` on a mapping without `key` */
    | KeyError(key: string)
    /** `xs[0]` on an empty list */
    | IndexError
    /** `x.attribute` on an object of type `typeName` that lacks it */
    | AttributeError(typeName: string, attribute: string)
    /** a local variable read before any assignment */
    | UnboundLocal(name: string)
    /** an exception raised by a library (transport, parser), by its message */
    | Raised(message: string)

  /** The string form of the exception, as CPython 3.11 renders it. */
  function Message(e: PyError): string {
    match e
    case KeyError(k) => "'" + k + "'"
    case IndexError => "list index out of range"
    case AttributeError(t, a) => "'" + t + "' object has no attribute '" + a + "'"
    case UnboundLocal(n) => "cannot access local variable '" + n + "' where it is not associated with a value"
    case Raised(m) => m
  }
}

=== FILE: scenario.dfy ===
/** A search from end to end: an ISBN as typed, the national library's
    record for it, the resolved triple and the category it selects. */
module Scenario {
  import opened Outcomes
  import opened Text
  import opened Isbn
  import opened Ndc
  import opened BookInfo
  import opened NdcMajor

  /** The record the library sends for 978-4-488-66335-3. */
  function YoruNoKioku(): Item {
    Item(Some("夜の記憶"), Some("恩田陸"),
         Some(Several([Plain("小説"), Typed(Some("dcndl:NDC9"), Some("913"))])))
  }

  /** A hyphen followed by a run of digits passes the filter as the run
      alone. */
  lemma DigitsAfterHyphen(a: string, b: string)
    requires AllDigits(b)
    ensures Digits(a + "-" + b) == Digits(a) + b
  {
    DigitsAppend(a + "-", b);
    DigitsAppend(a, "-");
    DigitsOfChar('-');
    DigitsOfDigits(b);
    calc {
      Digits(a + "-" + b);
      Digits(a + "-") + Digits(b);
      (Digits(a) + Digits("-")) + b;
      { assert Digits(a) + "" == Digits(a); }
      Digits(a) + b;
    }
  }

  /** An ISBN typed as five hyphen-separated groups of digits, with the
      Bookland prefix, is accepted as the groups joined. */
  lemma HyphenatedGroupsAccepted(g1: string, g2: string, g3: string, g4: string, check: char)
    requires AllDigits(g1) && AllDigits(g2) && AllDigits(g3) && AllDigits(g4) && IsDigit(check)
    requires |g1 + g2 + g3 + g4| == 12 && BooklandPrefix(g1 + g2 + g3 + g4)
    ensures IsbnChecker(g1 + "-" + g2 + "-" + g3 + "-" + g4 + "-" + [check]) ==
            (true, g1 + g2 + g3 + g4 + [check])
  {
    var typed := g1 + "-" + g2 + "-" + g3 + "-" + g4 + "-" + [check];
    DigitsOfDigits(g1);
    DigitsAfterHyphen(g1, g2);
    DigitsAfterHyphen(g1 + "-" + g2, g3);
    DigitsAfterHyphen(g1 + "-" + g2 + "-" + g3, g4);
    DigitsOfDigits([check]);
    DigitsAfterHyphen(g1 + "-" + g2 + "-" + g3 + "-" + g4, [check]);
    assert Digits(typed) == g1 + g2 + g3 + g4 + [check];
    OnlyDigitsMatter(typed);
    DigitsAllDigitsJoin(g1, g2, g3, g4);
    CheckDigitIgnored(g1 + g2 + g3 + g4, check);
  }

  /** Digit groups joined are digits. */
  lemma DigitsAllDigitsJoin(g1: string, g2: string, g3: string, g4: string)
    requires AllDigits(g1) && AllDigits(g2) && AllDigits(g3) && AllDigits(g4)
    ensures AllDigits(g1 + g2 + g3 + g4)
  {
    var j := g1 + g2 + g3 + g4;
    forall i | 0 <= i < |j|
      ensures IsDigit(j[i])
    {
      if i < |g1| { assert j[i] == g1[i]; }
      else if i < |g1 + g2| { assert j[i] == g2[i - |g1|]; }
      else if i < |g1 + g2 + g3| { assert j[i] == g3[i - |g1 + g2|]; }
      else { assert j[i] == g4[i - |g1 + g2 + g3|]; }
    }
  }

  /** The hyphenated ISBN is accepted as its thirteen digits. */
  lemma TypedIsbnAccepted()
    ensures IsbnChecker("978-4-488-66335-3") == (true, "9784488663353")
  {
    assert "978-4-488-66335-3" == "978" + "-" + "4" + "-" + "488" + "-" + "66335" + "-" + ['3'];
    assert "9784488663353" == "978" + "4" + "488" + "66335" + ['3'];
    HyphenatedGroupsAccepted("978", "4", "488", "66335", '3');
  }

  /** The record's classification is the text of its NDC subject. */
  lemma RecordClassified()
    ensures GetNdc(Single(YoruNoKioku())) == Success("913")
  {
    var es := [Plain("小説"), Typed(Some("dcndl:NDC9"), Some("913"))];
    assert Contains("dcndl:NDC9", NdcMarker) by {
      assert OccursAt("dcndl:NDC9", NdcMarker, 0);
    }
    FirstQualifyingEntryWins(YoruNoKioku(), es, 1, NdcUnknown);
  }

  /** The library answer for the record yields its title, author and
      classification. */
  lemma RecordFetched()
    ensures FetchBookInfo(NdlAnswer(200, Rss(Single(YoruNoKioku())))) ==
      Triple("夜の記憶", Some("恩田陸"), Some("913"))
  {
    RecordClassified();
    LastSegmentWithoutSeparator("恩田陸", ',');
    RecordFound(YoruNoKioku(), "913");
  }

  /** The library record resolves to its title, author and classification,
      whatever Google Books would answer. */
  lemma RecordResolved(secondary: BooksReply)
    ensures Resolve(NdlAnswer(200, Rss(Single(YoruNoKioku()))), secondary) ==
      Triple("夜の記憶", Some("恩田陸"), Some("913"))
  {
    RecordFetched();
    assert "夜の記憶" !in Sentinels;
  }

  /** The whole search: accepted ISBN, resolved record, and the category
      "9: 文学" selected for "913". */
  lemma YoruNoKiokuScenario(secondary: BooksReply)
    ensures IsbnChecker("978-4-488-66335-3") == (true, "9784488663353")
    ensures Resolve(NdlAnswer(200, Rss(Single(YoruNoKioku()))), secondary) ==
      Triple("夜の記憶", Some("恩田陸"), Some("913"))
    ensures MajorChoices[MajorIndex(Some("913"))] == "9: 文学"
  {
    TypedIsbnAccepted();
    RecordResolved(secondary);
  }
}

=== FILE: text.dfy ===
/** The string primitives the modelled routines rely on: the digit class of
    Python's `\d`, `re.sub(r"\D", "", s)`, `str.find`, `s.split(sep)[-1]`
    and the decimal rendering of `f"{n}"`. */
module Text {

  predicate IsAsciiDigit(c: char) {
    '0' <= c <= '9'
  }

  /** Full-width digits, as typed by a Japanese input method. */
  predicate IsFullWidthDigit(c: char) {
    '０' <= c <= '９'
  }

  /** The decimal digits this model recognises (see README, "Left out"). */
  predicate IsDigit(c: char) {
    IsAsciiDigit(c) || IsFullWidthDigit(c)
  }

  /** The value `int(c)` gives a single digit character. */
  function DigitValue(c: char): (v: nat)
    requires IsDigit(c)
    ensures v < 10
    ensures IsAsciiDigit(c) ==> c == (v + '0' as int) as char
    ensures IsFullWidthDigit(c) ==> c == (v + '０' as int) as char
  {
    if IsAsciiDigit(c) then (c as int - '0' as int) as nat
    else (c as int - '０' as int) as nat
  }

  predicate AllDigits(s: string) {
    forall i :: 0 <= i < |s| ==> IsDigit(s[i])
  }

  /** `re.sub(r"\D", "", s)`: the digits of `s` in their order, every other
      character removed. */
  function Digits(s: string): (r: string)
    ensures AllDigits(r)
    ensures |r| <= |s|
    decreases |s|
  {
    if |s| == 0 then ""
    else (if IsDigit(s[0]) then [s[0]] else "") + Digits(s[1..])
  }

  /** `Digits` distributes over concatenation: it looks at each character on
      its own, so together with `DigitsOfChar` this pins it down. */
  lemma {:induction false} DigitsAppend(a: string, b: string)
    ensures Digits(a + b) == Digits(a) + Digits(b)
    decreases |a|
  {
    if |a| == 0 {
      assert a + b == b;
    } else {
      var ab := a + b;
      assert ab[0] == a[0];
      assert ab[1..] == a[1..] + b;
      DigitsAppend(a[1..], b);
      var head := if IsDigit(a[0]) then [a[0]] else "";
      calc {
        Digits(ab);
        head + Digits(ab[1..]);
        head + (Digits(a[1..]) + Digits(b));
        (head + Digits(a[1..])) + Digits(b);
      }
    }
  }

  /** One character survives exactly when it is a digit. */
  lemma DigitsOfChar(c: char)
    ensures Digits([c]) == (if IsDigit(c) then [c] else "")
  {
  }

  /** A string of digits is left as it is; so `Digits` is idempotent. */
  lemma {:induction false} DigitsOfDigits(s: string)
    requires AllDigits(s)
    ensures Digits(s) == s
    decreases |s|
  {
    if |s| > 0 {
      assert AllDigits(s[1..]) by {
        forall i | 0 <= i < |s[1..]| ensures IsDigit(s[1..][i]) {
          assert s[1..][i] == s[i + 1];
        }
      }
      DigitsOfDigits(s[1..]);
      assert s == [s[0]] + s[1..];
    }
  }

  lemma DigitsIdempotent(s: string)
    ensures Digits(Digits(s)) == Digits(s)
  {
    DigitsOfDigits(Digits(s));
  }

  /** `sub` occurs in `s` starting at index `i`. */
  predicate OccursAt(s: string, sub: string, i: int) {
    0 <= i && i + |sub| <= |s| && s[i..i + |sub|] == sub
  }

  /** `s.find(sub) >= 0`. */
  function Contains(s: string, sub: string): (r: bool)
    ensures r <==> exists i :: OccursAt(s, sub, i)
    decreases |s|
  {
    if sub <= s then
      assert OccursAt(s, sub, 0);
      true
    else if |s| == 0 then
      false
    else
      var r := Contains(s[1..], sub);
      ContainsShift(s, sub);
      r
  }

  /** Occurrences in `s` after index 0 are the occurrences in `s[1..]`,
      shifted by one. */
  lemma ContainsShift(s: string, sub: string)
    requires |s| > 0 && !(sub <= s)
    ensures (exists i :: OccursAt(s, sub, i)) <==> (exists i :: OccursAt(s[1..], sub, i))
  {
    if i :| OccursAt(s, sub, i) {
      assert i != 0;
      assert s[1..][i - 1..i - 1 + |sub|] == s[i..i + |sub|];
      assert OccursAt(s[1..], sub, i - 1);
    }
    if i :| OccursAt(s[1..], sub, i) {
      assert s[1..][i..i + |sub|] == s[i + 1..i + 1 + |sub|];
      assert OccursAt(s, sub, i + 1);
    }
  }

  /** `s.split(sep)[-1]`: what follows the last `sep` in `s`, or all of `s`
      when there is none. The three clauses say it is the longest suffix of
      `s` without `sep`. */
  function LastSegment(s: string, sep: char): (r: string)
    ensures sep !in r
    ensures |r| <= |s| && r == s[|s| - |r|..]
    ensures |r| == |s| || s[|s| - |r| - 1] == sep
    decreases |s|
  {
    if |s| == 0 then ""
    else if s[|s| - 1] == sep then ""
    else LastSegment(s[..|s| - 1], sep) + [s[|s| - 1]]
  }

  lemma LastSegmentWithoutSeparator(s: string, sep: char)
    requires sep !in s
    ensures LastSegment(s, sep) == s
  {
  }

  function DigitChar(d: nat): (c: char)
    requires d < 10
    ensures IsAsciiDigit(c) && DigitValue(c) == d
  {
    (d + '0' as int) as char
  }

  /** The number an ASCII digit string denotes (`int(s)`). */
  function ValueOf(s: string): nat
    requires forall i :: 0 <= i < |s| ==> IsAsciiDigit(s[i])
    decreases |s|
  {
    if |s| == 0 then 0 else ValueOf(s[..|s| - 1]) * 10 + DigitValue(s[|s| - 1])
  }

  /** `f"{n}"` for a non-negative integer: its decimal digits, no leading
      zero. */
  function Decimal(n: nat): (r: string)
    ensures |r| > 0
    ensures forall i :: 0 <= i < |r| ==> IsAsciiDigit(r[i])
    ensures r[0] == '0' ==> n == 0 && r == "0"
    decreases n
  {
    if n < 10 then [DigitChar(n)] else Decimal(n / 10) + [DigitChar(n % 10)]
  }

  /** Reading the rendering back gives the number. */
  lemma {:induction false} DecimalRoundTrip(n: nat)
    ensures ValueOf(Decimal(n)) == n
    decreases n
  {
    var r := Decimal(n);
    if n >= 10 {
      DecimalRoundTrip(n / 10);
      assert r[..|r| - 1] == Decimal(n / 10);
    }
  }
}

=== FILE: thumbnail.dfy ===
/** `get_thumbnail` (app.py): the cover image of the national library's
    thumbnail service, or the Google Books thumbnail when the library
    answers 404, or the local placeholder. The status of the probe and the
    Google Books answer are inputs. */
module Thumbnail {
  import opened Outcomes
  import opened BookInfo

  const NoImage := "NoImage.png"
  const ThumbnailHost := "https://ndlsearch.ndl.go.jp/thumbnail/"

  function PrimaryUrl(isbn: string): string {
    ThumbnailHost + isbn + ".jpg"
  }

  /** The body names `link` as the thumbnail of its first volume. */
  predicate Carries(body: BooksBody, link: string) {
    && body.Volumes?
    && body.items.Some?
    && |body.items.value| > 0
    && body.items.value[0].volumeInfo.Some?
    && body.items.value[0].volumeInfo.value.Info?
    && body.items.value[0].volumeInfo.value.imageLinks == Some(ImageLinks(Some(link)))
  }

  /** The `try` block reading
      `json()["items"][0]["volumeInfo"]["imageLinks"].get("thumbnail", ...)`;
      every exception along the path gives the placeholder. */
  function LinkFrom(body: BooksBody): (r: string)
    ensures r != NoImage ==> Carries(body, r)
    ensures forall link :: Carries(body, link) ==> r == link
  {
    match body
    case BooksUnparsable(_) => NoImage
    case Volumes(items) =>
      match FirstVolumeInfo(items)
      case Success(Info(_, _, Some(ImageLinks(thumbnail)))) => thumbnail.GetOr(NoImage)
      case _ => NoImage
  }

  /** The inputs on which `get_thumbnail` returns: an exception from the
      second request is not caught, and a non-200 second answer leaves the
      result variable unassigned. */
  predicate Answerable(isbn: string, probe: nat, secondary: BooksReply) {
    isbn == "" || probe != 404 || (secondary.BooksAnswer? && secondary.status == 200)
  }

  /** `get_thumbnail`: the placeholder without an ISBN, the library's URL
      unless the probe answers 404, and otherwise what the Google Books
      body names. */
  function GetThumbnail(isbn: string, probe: nat, secondary: BooksReply): (r: string)
    requires Answerable(isbn, probe, secondary)
    ensures isbn == "" ==> r == NoImage
    ensures isbn != "" && probe != 404 ==> r == PrimaryUrl(isbn)
    ensures isbn != "" && probe == 404 ==> r == LinkFrom(secondary.body)
  {
    if isbn == "" then NoImage
    else if probe == 404 then LinkFrom(secondary.body)
    else PrimaryUrl(isbn)
  }

  /** When the library has the cover, Google Books is not consulted: the
      answer does not depend on it. */
  lemma SecondaryNotConsulted(isbn: string, probe: nat, s1: BooksReply, s2: BooksReply)
    requires isbn != "" && probe != 404
    ensures GetThumbnail(isbn, probe, s1) == GetThumbnail(isbn, probe, s2)
  {
  }

  /** A 404 from the library and a Google Books volume without `imageLinks`
      give the placeholder, not an error. */
  lemma NoImageLinksGivesPlaceholder(isbn: string, title: Option<string>, authors: Option<Authors>)
    requires isbn != ""
    ensures GetThumbnail(isbn, 404, BooksAnswer(200, Volumes(Some([Volume(Some(Info(title, authors, None)))])))) == NoImage
  {
  }

  /** An answer without any volume gives the placeholder. */
  lemma NoVolumesGivesPlaceholder(isbn: string, items: Option<seq<Volume>>)
    requires isbn != "" && (items.None? || items == Some([]))
    ensures GetThumbnail(isbn, 404, BooksAnswer(200, Volumes(items))) == NoImage
  {
  }

  /** Different ISBNs get different library URLs, none of them the
      placeholder. */
  lemma PrimaryUrlInjective(a: string, b: string)
    ensures PrimaryUrl(a) == PrimaryUrl(b) ==> a == b
    ensures PrimaryUrl(a) != NoImage
  {
    if PrimaryUrl(a) == PrimaryUrl(b) {
      var n := |ThumbnailHost|;
      assert |a| == |b|;
      assert a == PrimaryUrl(a)[n..n + |a|];
      assert b == PrimaryUrl(b)[n..n + |b|];
    }
    assert PrimaryUrl(a)[0] != NoImage[0];
  }
}
